=== FILE: README.md ===
# Learner progress and activity sessions of a German-learning app

This project models the rules of a React Native app for children learning German. The app has
onboarding, dashboard, category, flashcard, quiz and Q&A screens. Every screen except Q&A reads or
writes one learner profile, stored under the key `userProfile`. The model covers the decisions and state
machines behind those screens:

- **Profile store.** The store is an `Option<Profile>`. `addStars` reads the profile, adds to `stars`
  and writes the whole record back (`ProfileStore`).
- **Rewards.** A correct quiz answer pays 2 stars. The third correct answer in a row pays 5 more
  and resets the streak. A flashcard "next" pays 1 star, or 5 on the last card (`Ledger`).
- **Answer sessions.** The quiz and the Q&A screen share one machine (`AnswerSession`): a question
  index, the chosen key, and a tri-state outcome that locks the question. An armed timer then shows
  the next question or goes back. The quiz adds a streak and star awards (`Quiz`). The Q&A screen
  adds nothing (`QA`). The Q&A functions take no store, so they can neither read nor change the
  profile.
- **Flashcards.** A bounded card index, the "next" rule and the empty state (`Flashcards`).
- **Onboarding.** The mount-time check, the slide pager, and the form with its ordered validation.
  The name is trimmed with JavaScript's `trim` (`Text`). The screen creates the first profile
  (`Onboarding`).
- **Routing.** The dashboard's and the category grid's profile gates, the quick-access and category
  routing, and the back-button rule (`Dashboard`, `Categories`). `Journeys` holds properties that
  span screens.

Each handler is a pure transition function on an explicit state record. The store is passed and
returned as a separate value. A navigation request is a `Nav` value. The 1.5-second timer of the
quiz and Q&A screens is an explicit `TimerFires` event. Once a screen has asked to go back, or has
been replaced, it is unmounted: later events do nothing.

Three behaviours of the app are worth stating plainly:
- Finishing a quiz pays no completion stars. The last timer step only goes back.
- `addStars` with no stored profile writes nothing and reports nothing; it does not raise an error.
- The "level 1" fallback is applied only when the dashboard displays the level. Loading a profile
  does not apply it.

## Model

| member | source | states |
|---|---|---|
| ProfileStore.AddStars | src/screens/FlashcardsScreen.js:44-56 | With a stored profile, `stars` becomes the old stars (0 if absent) plus the count, and no other field changes. With no profile, nothing is written. |
| ProfileStore.AddStarsEachSums | src/screens/QuizScreen.js:40-52 | Any run of awards on a stored profile adds exactly their sum to the stars and leaves every other field alone. |
| ProfileStore.AddStarsEachNoProfile | src/screens/FlashcardsScreen.js:46-47 | With no stored profile, every award is dropped and the store stays empty. |
| ProfileStore.AddStarsEachIsOneWrite | src/screens/QuizScreen.js:98-103 | Sequential awards (such as the quiz's 2 then 5) have the effect of one award of their sum. |
| ProfileStore.AddStarsEachOrderIndependent | src/screens/FlashcardsScreen.js:49 | Stars accrue commutatively: any permutation of the same awards leaves the same record. |
| ProfileStore.Read | src/screens/CategoriesScreen.js:56-58 | A successful read finds a profile exactly when one is stored, and finds what is stored. It yields `Missing` exactly when the read succeeds on an empty store. A rejected read yields `Rejected`, never a profile. |
| ProfileStore.LoadProfile | src/screens/CategoriesScreen.js:53-69 | After any read, loading ends. The user is sent to Onboarding exactly when no profile is stored. A failed read requests nothing. A found profile is kept. |
| Ledger.RewardAnswer | src/screens/QuizScreen.js:96-113 | A wrong answer pays nothing and zeroes the streak. A correct answer pays 2. The bonus fires exactly when the streak was 2: it pays 5 more and resets the streak. The streak after any answer is at most 2, and one answer pays at most 7. |
| Ledger.RewardNext | src/screens/FlashcardsScreen.js:110-118 | "Next" pays 5 exactly on the last card and 1 on every other card. |
| Ledger.ReplayMatchesReference | src/screens/QuizScreen.js:96-112 | Replaying the answer rule over a session pays 2 per correct answer plus 5 per completed triple of consecutive correct answers. The streak equals the trailing run of correct answers modulo 3. |
| Ledger.AllCorrectPays | src/screens/QuizScreen.js:99-107 | n correct answers in a row from a fresh streak pay 2n + 5·⌊n/3⌋ stars and leave a streak of n mod 3. |
| Ledger.WrongAnswerResetsStreak | src/screens/QuizScreen.js:109-112 | After a wrong answer the streak is 0 and the total is unchanged. |
| AnswerSession.Select | src/screens/QAScreen.js:36-41 | A locked question ignores a selection. Otherwise the key is recorded and the outcome is correct exactly when the key is the question's correct key. Either way the question ends locked and the index is unchanged. |
| AnswerSession.SelectIsLocked | src/screens/QuizScreen.js:90 | A second selection on the same question changes nothing. |
| AnswerSession.Step | src/screens/QAScreen.js:36-56 | After the screen has gone back, nothing changes. A choice on a locked question changes nothing. A choice on an open question appends its correctness to the accepted answers and locks the question. The timer adds no answer and leaves the state where the deferred advance puts it: the next question, cleared, or unchanged on the last one. It goes back exactly when the last question is answered. |
| AnswerSession.Run | src/screens/QuizScreen.js:89-127 | Over any events, accepted answers are only appended: the earlier ones are kept, and each event adds at most one. A screen that has gone back handles nothing. |
| AnswerSession.Advance | src/screens/QAScreen.js:47-56 | Before the last question, the timer moves to the next index and clears the selection and outcome. On the last question it goes back and leaves the state unchanged. With no answer locked, no timer is armed and nothing happens. |
| AnswerSession.RunAnswersEachQuestionOnce | src/screens/QuizScreen.js:89-127 | Over any events, the index stays in bounds. The accepted answers number the questions reached, plus one if the current question is locked, so never more than the questions. The screen goes back only from the answered last question. |
| Quiz.QuestionsOnlyForFood | src/screens/QuizScreen.js:55-61 | A missing or empty category means `food`. Only `food` has questions (one); every other key yields an empty list. |
| Quiz.Answer | src/screens/QuizScreen.js:89-113 | While locked, the answer is a no-op for state and store. Otherwise: a wrong answer writes nothing and zeroes the streak. A correct answer on a streak below 2 pays 2 and increments the streak. A correct answer on streak 2 pays 2 then 5 and resets the streak. |
| Quiz.Step | src/screens/QuizScreen.js:116-126 | The quiz's answer state moves exactly like the shared machine. The timer step carries the streak over and writes nothing, including when it finishes the quiz. |
| Quiz.Run | src/screens/QuizScreen.js:56-58 | The answer state of a whole quiz run is that of the shared machine on the same events. |
| Quiz.RunAccounted | src/screens/QuizScreen.js:96-112 | Over any events, the streak equals the replayed streak. The stored stars equal the initial stars plus the replayed awards, and no other field changes. |
| Quiz.Open | src/screens/QuizScreen.js:71-87 | The empty state is shown exactly when the resolved category has no questions. Otherwise the screen starts on question 0 with nothing selected. |
| Quiz.PlayTheorem | src/screens/QuizScreen.js:54-127 | For any category and events: the streak is in 0..2, and at most one answer is paid per question. Stars grow by 2 per correct answer plus 5 per completed triple, and no other field changes. No profile is ever created. An empty category leaves the store untouched. |
| Quiz.OneCorrectAnswerScenario | src/screens/QuizScreen.js:96-125 | On the single food question, the right answer pays exactly 2 stars and the timer then leaves the screen. |
| Flashcards.CardsOnlyForAnimals | src/screens/FlashcardsScreen.js:59-63 | A missing or empty category means `animals`. Only `animals` has cards (two); every other key yields the empty state. |
| Flashcards.Next | src/screens/FlashcardsScreen.js:109-119 | Before the last card, "next" increments the index and pays 1 star. On the last card it pays 5, keeps the index and goes back. The index stays below the card count. |
| Flashcards.PressNext | src/screens/FlashcardsScreen.js:109-111 | The index stays within the set for any number of presses. |
| Flashcards.PressNextPays | src/screens/FlashcardsScreen.js:109-119 | From card i of n, k presses either stay inside the set (index i + k, k stars) or finish it. Finishing rests the index on the last card, goes back, and pays (n − 1 − i) + 5. No other field changes. |
| Flashcards.ExitedIgnoresPresses | src/screens/FlashcardsScreen.js:117 | After the screen has gone back, further presses change nothing. |
| Flashcards.WholeSetPays | src/screens/FlashcardsScreen.js:109-119 | Pressing through a whole set of n ≥ 1 cards pays (n − 1) + 5 stars and leaves the screen. |
| Flashcards.PressNextNoProfile | src/screens/FlashcardsScreen.js:46-47 | Without a stored profile, presses write nothing. |
| Flashcards.Play | src/screens/FlashcardsScreen.js:59-63 | For a non-empty set, the index stays on a card of the category's set. |
| Flashcards.PlayTheorem | src/screens/FlashcardsScreen.js:91-119 | For any category and presses, no profile is created or removed. Stars grow by one per card left behind, plus 5 once the set is finished. The screen goes back exactly when the set is finished. An empty set writes nothing, since its empty state has no "next" button. |
| Flashcards.PressNextExits | src/screens/FlashcardsScreen.js:110-118 | From card i of n, the screen has gone back exactly when at least n − i presses were made. |
| Flashcards.AnimalsSetPays | src/screens/FlashcardsScreen.js:59-63 | The default set, animals, pays 1 + 5 stars for its two cards and then goes back. |
| QA.Open | src/screens/QAScreen.js:29-34 | The questions are always the fixed list. The category only decorates the header, and only when it is non-empty. |
| QA.PlayIgnoresCategory | src/screens/QAScreen.js:29-34 | A Q&A session is the same whatever category is passed. |
| QA.PlayAnswersOnce | src/screens/QAScreen.js:36-57 | With its single question, a session accepts at most one answer and stays on question 0. It goes back only once that answer is locked. |
| QA.SingleQuestionScenario | src/screens/QAScreen.js:13-26 | The cat is the right answer and any other key is wrong. The timer then leaves the screen either way. |
| Text.Trim | src/screens/OnboardingScreen.js:71 | The result is an infix of the input from which only whitespace was removed. It is empty exactly when the input is all whitespace. Otherwise it starts and ends with non-whitespace. |
| Text.TrimIdempotent | src/screens/OnboardingScreen.js:85 | Trimming a trimmed name changes nothing. |
| Text.TrimFixesTrimmed | src/screens/OnboardingScreen.js:85 | Trimming leaves a string alone exactly when it neither starts nor ends with whitespace. |
| Onboarding.MountCheck | src/screens/OnboardingScreen.js:50-59 | On mount, any non-empty stored text, parseable or not, replaces the screen with MainApp; the text is never parsed. Nothing stored, or a rejected read, leaves the user on onboarding. |
| Onboarding.NextSlide | src/screens/OnboardingScreen.js:61-68 | "Next" advances while another slide exists and otherwise changes nothing, so the index never passes the last slide. |
| Onboarding.Validate | src/screens/OnboardingScreen.js:84-91 | A valid form yields the trimmed name, the chosen level and avatar, zero stars, zero badges and empty progress. |
| Onboarding.ValidationOrder | src/screens/OnboardingScreen.js:71-82 | The name is rejected exactly when it is all whitespace, whatever else is missing. The level is rejected only for a good name. The avatar is rejected only when name and level are both good. |
| Onboarding.StartLearning | src/screens/OnboardingScreen.js:70-101 | A rejected form writes nothing and requests nothing. A valid form is saved exactly when the write succeeds, and only then is the screen replaced with MainApp. A failed write changes neither the store nor the route. |
| Onboarding.Step | src/screens/OnboardingScreen.js:143-191 | "Next" acts only before the last slide; level, name, avatar and start act only on it. There a level or avatar button sets that field to its table's key, typing sets the name, and no other field changes. A "start" press never changes the form. Any other press changes nothing. Only a successful save writes the store, and it writes the validated profile. A "start" press whose write fails changes nothing. A valid form on the last slide whose write succeeds always leaves. The screen leaves only after a successful save of a valid form, or when the mount read finds a stored profile; that read never changes the form or the store. |
| Onboarding.RunConsistent | src/screens/OnboardingScreen.js:50-191 | Over any events, including the mount read at any point: the slide index stays on a slide, and a chosen level or avatar is a key of its table. The store is untouched while the screen stays. When it leaves, the store holds a profile: the one found on mount, untouched, or a newly created, well-formed one. |
| Onboarding.RunExited | src/screens/OnboardingScreen.js:55 | A screen that has been replaced handles no further event. |
| Onboarding.MountedOverStoredProfile | src/screens/OnboardingScreen.js:50-59 | A stored profile found by the mount read replaces the screen at once, so no later event can overwrite it. |
| Onboarding.FormAfterTwoSlides | src/screens/OnboardingScreen.js:143 | The form is not shown after one "next" press and is shown after two. |
| Categories.Mount | src/screens/CategoriesScreen.js:53-86 | Once the read settles, the grid is shown whatever the result. The user is sent to Onboarding exactly when no profile is stored; otherwise nothing is requested. A profile is held exactly when one was read. |
| Categories.TargetScreen | src/screens/CategoriesScreen.js:71-75 | The target is Quiz exactly when the activity type is `quiz`. Anything else, including nothing, gives Flashcards. |
| Categories.PressCategory | src/screens/CategoriesScreen.js:71-78 | A press navigates to the target screen with parameters exactly `{category: key}`. |
| Categories.BackButtonRule | src/screens/CategoriesScreen.js:92 | The back button shows exactly when the navigator can go back and the activity type is absent or empty. |
| Dashboard.Mount | src/screens/DashboardScreen.js:52-88 | Content is shown exactly when a profile was read; otherwise only the spinner. The user is sent to Onboarding exactly when no profile is stored; a found profile requests nothing. A rejected read or unparseable text leaves the spinner up for good and requests nothing. |
| Dashboard.PressQuickAccess | src/screens/DashboardScreen.js:73-80 | The flashcards and quiz entries open their target with `{activityType: key}`. Every other entry opens its target with no parameters. |
| Dashboard.QuickAccessDestinations | src/screens/DashboardScreen.js:17-46 | Flashcards and quiz go to Categories with their activity type. Stories goes to Stories and progress goes to Rewards. All four are registered routes. |
| Dashboard.LevelDisplay | src/screens/DashboardScreen.js:108 | The shown level is 1 exactly when the stored level is absent or empty. Otherwise it is the stored level. |
| Journeys.AllRequestsRegistered | src/navigation/AppNavigator.js:89-99 | Every request made by the gates, the category grid and the quick-access entries names a route the stack navigator registers. |
| Journeys.QuickAccessReachesActivity | src/screens/DashboardScreen.js:73-80 | The dashboard's quiz and flashcards entries lead through the category grid to the Quiz and Flashcards screens, with the pressed category. |
| Journeys.GridCategoriesWithContent | src/screens/CategoriesScreen.js:20-46 | Of the five grid categories, only food opens a quiz with questions, and only animals opens a non-empty flashcard set. |
| Journeys.CreatedProfileShowsItsLevel | src/screens/DashboardScreen.js:108 | A profile created by onboarding always displays its own level, never the fallback. |
| Journeys.GatesAgreeOnStore | src/screens/DashboardScreen.js:55-61 | After a successful read, the dashboard and the category grid send the user to Onboarding exactly when nothing is stored. Onboarding hands over to MainApp exactly when something is. A rejected read leaves all three where they are. |
| Journeys.OnboardingThenGates | src/screens/OnboardingScreen.js:50-101 | From a blank form over any store, whatever the events: the store is untouched while onboarding stays. It leaves holding either the profile found on mount or a newly created one, always the latter over an empty store. Every gate then reads that profile: the dashboard shows it and requests nothing, the grid requests nothing, and onboarding hands over to MainApp. |
| Journeys.FirstRunScenario | src/screens/OnboardingScreen.js:50-101 | On a fresh install the dashboard and the grid send the user to Onboarding, and the mount read leaves them there. Two slides, then "beginner", "Layla" and avatar3, store exactly that record with zero counters, and the next mount goes to MainApp. |

## Left out

- Rendering, styles, layout and right-to-left handling, and `App.js`: these are presentation, not behaviour.
- The navigator's wiring: only the registered route names are used, as `Navigation.Routes`. `navigation.canGoBack()` is a parameter of the back-button rule.
- Audio: loading, replaying and releasing flashcard sounds (`FlashcardsScreen.js:65-89`, `121-136`) are calls into a native library. The Q&A voice-input stub does nothing.
- JSON and AsyncStorage: the store is the parsed record itself, and parse/stringify are the identity. A rejected `getItem` is the `Rejected` load result. A failed onboarding write is the `saveOk` parameter.
- ProfileStore.Read: the store holds parsed records only, so it cannot hold text that does not parse, and reading it never yields `Unparseable`. Each screen's answer to such text is stated on the `Unparseable` load result itself: onboarding hands over to MainApp, and the dashboard is stuck on its spinner. Stored text that parses to something other than a record, and an empty stored string, are not modelled.
- ProfileStore.AddStars: a rejected read or write inside `addStars` is caught and logged, and leaves the stored record as it was. The model has every `addStars` write succeed.
- The unawaited `addStars(2)` / `addStars(5)` pair of a bonus answer is modelled as two sequential writes. Under real interleaving one update could be lost; that race is not modelled.
- AnswerSession.Advance: the 1.5-second delay is an explicit event. A timer exists only while an answer is locked, so the event does nothing otherwise. Stale timer closures and timers that fire after unmount are not modelled.
- Quiz.Open: the reset effect on a change of category is not modelled separately. The category is fixed for a mounted screen, and mounting starts from the reset state.
- The onboarding pager's scroll offsets and its momentum-scroll handler (`OnboardingScreen.js:64`, `123-126`): these use screen width and floating-point division, and scrolling is disabled.
- Onboarding.MountCheck: the read has no error handler. A rejected read is modelled as requesting nothing, which is what the unhandled rejection amounts to.
- Onboarding.Step: the mount read is an event that may come at any point, or not at all, as it may in the app. A run without it, or with a rejected read, can overwrite a stored profile from the form, as the app can.
- Table lookups use own keys only. JavaScript would also find inherited object properties such as `constructor`.
- Star counts are unbounded integers. JavaScript numbers lose precision above 2^53, far beyond any reachable total.
- Alerts and console logging.
- The badge counter is never changed by any screen. It is carried through unchanged.

=== FILE: answer_session.dfy ===
/**
 * The answer machine shared by the quiz and the Q&A screens: a question
 * index, the chosen option key, and a tri-state outcome that locks the
 * question once set; an armed timer then either shows the next question or
 * leaves the screen.
 */
module AnswerSession {
  import opened Wrappers
  import opened Navigation

  /** A multiple-choice question: its option keys and the key of the right one. */
  datatype Question = Question(key: string, options: seq<string>, correctAnswerKey: string)

  /**
   * `currentQuestionIndex`, `selectedAnswerKey` and `isCorrect`; an
   * `outcome` of `None` is the `null` of a question not answered yet.
   */
  datatype State = State(index: nat, selected: Option<string>, outcome: Option<bool>)

  /** The state a screen mounts with. */
  const Start := State(0, None, None)

  /** The index points at a question, and a key is selected exactly when an outcome is set. */
  predicate Valid(questions: seq<Question>, s: State) {
    s.index < |questions| && (s.selected.None? <==> s.outcome.None?)
  }

  /** An answer has been accepted for the shown question; the options are disabled. */
  predicate Locked(s: State) {
    s.outcome.Some?
  }

  /**
   * `handleAnswerSelect(key)`: ignored while locked; otherwise records the key
   * and whether it is the question's correct key, which locks the question
   * and arms the advance timer.
   */
  function Select(questions: seq<Question>, s: State, key: string): (r: State)
    requires Valid(questions, s)
    ensures Valid(questions, r)
    ensures Locked(r)
    ensures Locked(s) ==> r == s
    ensures !Locked(s) ==> r.index == s.index && r.selected == Some(key)
    ensures !Locked(s) ==> (r.outcome == Some(true) <==> key == questions[s.index].correctAnswerKey)
  {
    if Locked(s) then s
    else State(s.index, Some(key), Some(key == questions[s.index].correctAnswerKey))
  }

  /** Once a question is answered, further selections change nothing. */
  lemma SelectIsLocked(questions: seq<Question>, s: State, first: string, second: string)
    requires Valid(questions, s)
    ensures Select(questions, Select(questions, s, first), second) == Select(questions, s, first)
  {
  }

  /** The state after the timer fires, and the request it makes. */
  datatype Advanced = Advanced(state: State, nav: Nav)

  /**
   * The deferred step armed by an accepted answer: show the next question
   * with selection and outcome cleared, or, after the last question, go back
   * leaving the state as it is. Without an accepted answer no timer is armed
   * and nothing happens.
   */
  function Advance(questions: seq<Question>, s: State): (r: Advanced)
    requires Valid(questions, s)
    ensures Valid(questions, r.state)
    ensures !Locked(s) ==> r == Advanced(s, Stay)
    ensures Locked(s) && s.index + 1 < |questions| ==>
              r.nav == Stay && r.state == State(s.index + 1, None, None)
    ensures Locked(s) && s.index + 1 == |questions| ==> r.nav == GoBack && r.state == s
    ensures r.nav == Stay || r.nav == GoBack
  {
    if !Locked(s) then Advanced(s, Stay)
    else if s.index < |questions| - 1 then Advanced(State(s.index + 1, None, None), Stay)
    else Advanced(s, GoBack)
  }

  /** User and timer events on an answer screen. */
  datatype Event = Choose(key: string) | TimerFires

  /**
   * A screen's history: its state, whether it has gone back (after which no
   * handler runs), and the outcomes of the answers it accepted, oldest first.
   */
  datatype Session = Session(state: State, exited: bool, answers: seq<bool>)

  /** One event; nothing happens once the screen has gone back. */
  function Step(questions: seq<Question>, s: Session, e: Event): (r: Session)
    requires Valid(questions, s.state)
    ensures Valid(questions, r.state)
    ensures s.exited ==> r == s
    ensures !s.exited && e.Choose? && Locked(s.state) ==> r == s
    ensures !s.exited && e.Choose? && !Locked(s.state) ==>
              && !r.exited && r.state == Select(questions, s.state, e.key)
              && r.answers == s.answers + [e.key == questions[s.state.index].correctAnswerKey]
    ensures !s.exited && e.TimerFires? ==>
              && r.answers == s.answers
              && r.state == Advance(questions, s.state).state
              && (r.exited <==> Locked(s.state) && s.state.index == |questions| - 1)
  {
    if s.exited then s
    else
      match e
      case Choose(key) =>
        var next := Select(questions, s.state, key);
        if Locked(s.state) then s
        else Session(next, false, s.answers + [next.outcome.value])
      case TimerFires =>
        var a := Advance(questions, s.state);
        Session(a.state, a.nav == GoBack, s.answers)
  }

  /**
   * The events in order. Accepted answers are only ever appended: the
   * earlier ones are kept, and each event adds at most one.
   */
  function Run(questions: seq<Question>, s: Session, events: seq<Event>): (r: Session)
    requires Valid(questions, s.state)
    ensures Valid(questions, r.state)
    ensures s.exited ==> r == s
    ensures |s.answers| <= |r.answers| <= |s.answers| + |events|
    ensures r.answers[..|s.answers|] == s.answers
    decreases |events|
  {
    if |events| == 0 then s else Run(questions, Step(questions, s, events[0]), events[1..])
  }

  /** Exactly one accepted answer per question reached so far, and the screen goes back only from the last question. */
  ghost predicate OneAnswerPerQuestion(questions: seq<Question>, s: Session) {
    && Valid(questions, s.state)
    && |s.answers| == s.state.index + (if Locked(s.state) then 1 else 0)
    && (s.exited ==> Locked(s.state) && s.state.index == |questions| - 1)
  }

  /**
   * From a fresh screen, any events keep the index in bounds and accept at
   * most one answer per question, so never more answers than questions.
   */
  lemma {:induction false} RunAnswersEachQuestionOnce(questions: seq<Question>, s: Session, events: seq<Event>)
    requires OneAnswerPerQuestion(questions, s)
    ensures OneAnswerPerQuestion(questions, Run(questions, s, events))
    ensures |Run(questions, s, events).answers| <= |questions|
    ensures s.exited ==> Run(questions, s, events) == s
    decreases |events|
  {
    if |events| > 0 {
      RunAnswersEachQuestionOnce(questions, Step(questions, s, events[0]), events[1..]);
    }
  }
}

=== FILE: categories.dfy ===
/**
 * The categories screen: the profile gate on mount, the category grid, the
 * rule that picks the activity a category opens, and the back button.
 */
module Categories {
  import opened Wrappers
  import opened Navigation
  import opened ProfileStore

  /** The keys of the category grid, in display order. */
  const CategoryKeys := ["animals", "colors", "numbers", "food", "family"]

  /**
   * `loadProfile` on mount. The screen checks only `loading`, so once the
   * read settles the grid is shown whatever it returned; a missing profile
   * additionally sends the user to onboarding.
   */
  function Mount(load: Load): (g: Gate)
    ensures !g.loading
    ensures g.nav == Replace("Onboarding") <==> load.Missing?
    ensures g.nav == Stay <==> !load.Missing?
    ensures g.profile.Some? <==> load.Found?
    ensures load.Found? ==> g.profile == Some(load.profile)
  {
    LoadProfile(load)
  }

  /** `handleCategoryPress`'s target: the quiz for activity type "quiz", flashcards for anything else or nothing. */
  function TargetScreen(activityType: Option<string>): (route: string)
    ensures route == "Quiz" <==> activityType == Some("quiz")
    ensures route == "Flashcards" <==> activityType != Some("quiz")
  {
    if activityType == Some("quiz") then "Quiz" else "Flashcards"
  }

  /** Pressing a category opens the target activity with exactly `{category: key}`. */
  function PressCategory(activityType: Option<string>, key: string): (n: Nav)
    ensures n.Navigate? && n.route in Routes
    ensures n.route == TargetScreen(activityType)
    ensures n.params == Params(Some(key), None)
  {
    Navigate(TargetScreen(activityType), Params(Some(key), None))
  }

  /** The back button shows only when the navigator can go back and no activity type was passed. */
  predicate BackButtonShown(canGoBack: bool, activityType: Option<string>) {
    canGoBack && !Truthy(activityType)
  }

  /** An activity type hides the back button; without one (absent or empty) it follows the navigator. */
  lemma BackButtonRule(canGoBack: bool, activityType: Option<string>)
    ensures BackButtonShown(canGoBack, activityType) <==> canGoBack && (activityType.None? || activityType.value == "")
    ensures BackButtonShown(canGoBack, Some("quiz")) == false
    ensures BackButtonShown(canGoBack, Some("flashcards")) == false
  {
  }
}

=== FILE: dashboard.dfy ===
/**
 * The dashboard: the profile gate on mount, the quick-access entries and
 * where each leads, and the level shown in the stats row.
 */
module Dashboard {
  import opened Wrappers
  import opened Navigation
  import opened ProfileStore

  /** A quick-access entry: its key and the route it opens. */
  datatype QuickAccessItem = QuickAccessItem(key: string, targetScreen: string)

  /** The quick-access table, in display order. */
  const QuickAccessItems := [
    QuickAccessItem("flashcards", "Categories"),
    QuickAccessItem("stories", "Stories"),
    QuickAccessItem("quiz", "Categories"),
    QuickAccessItem("progress", "Rewards")
  ]

  /** Only the spinner is shown while loading or when no profile is held. */
  predicate ShowsOnlyLoading(g: Gate) {
    g.loading || g.profile.None?
  }

  /**
   * `loadProfile` on mount: the dashboard's content appears exactly when a
   * profile was read, and then nothing else is requested; a missing one
   * sends the user to onboarding. A rejected read or unparseable text leaves
   * the spinner up for good and requests nothing.
   */
  function Mount(load: Load): (g: Gate)
    ensures ShowsOnlyLoading(g) <==> !load.Found?
    ensures g.nav == Replace("Onboarding") <==> load.Missing?
    ensures g.nav == Stay <==> !load.Missing?
    ensures load.Found? ==> g.profile == Some(load.profile)
    ensures (load.Rejected? || load.Unparseable?) ==> ShowsOnlyLoading(g) && g.nav == Stay
  {
    LoadProfile(load)
  }

  /**
   * `handleQuickAccessPress`: the flashcards and quiz entries pass their key
   * as the activity type; every other entry opens its route with no
   * parameters.
   */
  function PressQuickAccess(item: QuickAccessItem): (n: Nav)
    ensures n.Navigate? && n.route == item.targetScreen
    ensures item.key in {"flashcards", "quiz"} ==> n.params == Params(None, Some(item.key))
    ensures item.key !in {"flashcards", "quiz"} ==> n.params == NoParams
  {
    if item.key == "flashcards" || item.key == "quiz" then
      Navigate(item.targetScreen, Params(None, Some(item.key)))
    else
      Navigate(item.targetScreen, NoParams)
  }

  /** Where each entry of the table leads. */
  lemma QuickAccessDestinations()
    ensures PressQuickAccess(QuickAccessItems[0]) == Navigate("Categories", Params(None, Some("flashcards")))
    ensures PressQuickAccess(QuickAccessItems[1]) == Navigate("Stories", NoParams)
    ensures PressQuickAccess(QuickAccessItems[2]) == Navigate("Categories", Params(None, Some("quiz")))
    ensures PressQuickAccess(QuickAccessItems[3]) == Navigate("Rewards", NoParams)
    ensures forall i :: 0 <= i < |QuickAccessItems| ==> Registered(PressQuickAccess(QuickAccessItems[i]))
  {
  }

  /** The level shown in the stats row: the stored level, or the number 1. */
  datatype LevelShown = LevelName(name: string) | LevelOne

  /** `profile.level || 1`. */
  function LevelDisplay(p: Profile): (r: LevelShown)
    ensures r == LevelOne <==> p.level.None? || p.level.value == ""
    ensures r.LevelName? ==> r.name == p.level.value && r.name != ""
  {
    if Truthy(p.level) then LevelName(p.level.value) else LevelOne
  }
}

=== FILE: flashcards.dfy ===
/**
 * The flashcard screen: a bounded card index; "next" pays one star per card
 * left behind, and on the last card pays the set bonus and leaves.
 */
module Flashcards {
  import opened Wrappers
  import opened Navigation
  import opened ProfileStore
  import opened Ledger

  /** A card: its key, German word, Arabic translation and audio file name. */
  datatype Card = Card(key: string, germanWord: string, translation: string, audio: string)

  /** The category shown when none is passed. */
  const DefaultCategory := "animals"

  /** The static card table, by category key. */
  const FlashcardsData: map<string, seq<Card>> := map[
    "animals" := [Card("cat", "Katze", "قطة", "katze.mp3"), Card("dog", "Hund", "كلب", "hund.mp3")],
    "colors" := []
  ]

  /** `flashcardsData[route.params?.category || 'animals'] || []`. */
  function CardsFor(category: Option<string>): seq<Card> {
    Lookup(FlashcardsData, OrElse(category, DefaultCategory))
  }

  /** Only the animals category, which is also the default, has cards; any other key yields none. */
  lemma CardsOnlyForAnimals(category: Option<string>)
    ensures |CardsFor(category)| > 0 <==> !Truthy(category) || category.value == "animals"
    ensures |CardsFor(category)| == 0 || |CardsFor(category)| == 2
  {
  }

  /** `currentIndex`, the store, and whether the screen has gone back. */
  datatype Session = Session(index: nat, store: Option<Profile>, exited: bool)

  function Fresh(store: Option<Profile>): Session {
    Session(0, store, false)
  }

  /**
   * `handleNext` on a set of `count` cards: on a card before the last, move
   * on and pay 1 star; on the last, pay 5 stars instead, keep the index and
   * go back. A screen that has gone back handles nothing.
   */
  function Next(count: nat, s: Session): (r: Session)
    requires s.index < count
    ensures r.index < count
    ensures s.exited ==> r == s
    ensures !s.exited && s.index + 1 < count ==> r == Session(s.index + 1, AddStars(s.store, 1), false)
    ensures !s.exited && s.index + 1 == count ==> r == Session(s.index, AddStars(s.store, 5), true)
  {
    if s.exited then s
    else if s.index < count - 1 then Session(s.index + 1, AddStars(s.store, RewardNext(false)), false)
    else Session(s.index, AddStars(s.store, RewardNext(true)), true)
  }

  /** `presses` presses of "next". */
  function PressNext(count: nat, s: Session, presses: nat): (r: Session)
    requires s.index < count
    ensures r.index < count
    decreases presses
  {
    if presses == 0 then s else PressNext(count, Next(count, s), presses - 1)
  }

  /**
   * From card `i` of `count`, `k` presses either stay inside the set (index
   * i + k, k stars) or finish it: the index rests on the last card, the
   * screen goes back, and the pay is one star per remaining card but the
   * last, plus 5. No other field of the profile changes.
   */
  lemma {:induction false} PressNextPays(count: nat, s: Session, presses: nat)
    requires s.index < count && !s.exited && s.store.Some?
    ensures PressNext(count, s, presses).store.Some?
    ensures PressNext(count, s, presses).store.value.(stars := s.store.value.stars) == s.store.value
    ensures presses > 0 ==> PressNext(count, s, presses).store.value.stars.Some?
    ensures s.index + presses < count ==>
              && PressNext(count, s, presses).index == s.index + presses
              && !PressNext(count, s, presses).exited
              && Stars(PressNext(count, s, presses).store.value) == Stars(s.store.value) + presses
    ensures s.index + presses >= count ==>
              && PressNext(count, s, presses).index == count - 1
              && PressNext(count, s, presses).exited
              && Stars(PressNext(count, s, presses).store.value) == Stars(s.store.value) + (count - 1 - s.index) + 5
    decreases presses
  {
    if presses > 0 {
      var t := Next(count, s);
      if s.index + 1 < count {
        PressNextPays(count, t, presses - 1);
      } else {
        ExitedIgnoresPresses(count, t, presses - 1);
      }
    }
  }

  lemma {:induction false} ExitedIgnoresPresses(count: nat, s: Session, presses: nat)
    requires s.index < count && s.exited
    ensures PressNext(count, s, presses) == s
    decreases presses
  {
    if presses > 0 {
      ExitedIgnoresPresses(count, s, presses - 1);
    }
  }

  /** Pressing through a whole set of n cards pays (n - 1) + 5 stars and leaves the screen. */
  lemma WholeSetPays(count: nat, p: Profile)
    requires count >= 1
    ensures PressNext(count, Fresh(Some(p)), count).exited
    ensures PressNext(count, Fresh(Some(p)), count).store == Some(p.(stars := Some(Stars(p) + (count - 1) + 5)))
  {
    PressNextPays(count, Fresh(Some(p)), count);
  }

  /** Without a stored profile the presses still move through the cards but write nothing. */
  lemma {:induction false} PressNextNoProfile(count: nat, s: Session, presses: nat)
    requires s.index < count && s.store.None?
    ensures PressNext(count, s, presses).store.None?
    decreases presses
  {
    if presses > 0 {
      PressNextNoProfile(count, Next(count, s), presses - 1);
    }
  }

  /**
   * The screen as mounted on a category: an empty set shows the empty state,
   * which renders no "next" button; otherwise the presses run over the set.
   */
  function Play(category: Option<string>, store: Option<Profile>, presses: nat): (r: Session)
    ensures |CardsFor(category)| > 0 ==> r.index < |CardsFor(category)|
  {
    var cards := CardsFor(category);
    if |cards| == 0 then Fresh(store) else PressNext(|cards|, Fresh(store), presses)
  }

  /**
   * Whatever the category and the number of presses: a profile is neither
   * created nor removed, only its stars change, and they grow by one per
   * card left behind, plus 5 once the set is finished, which is also exactly
   * when the screen goes back. An empty set writes nothing.
   */
  lemma PlayTheorem(category: Option<string>, store: Option<Profile>, presses: nat)
    ensures Play(category, store, presses).store.Some? <==> store.Some?
    ensures Play(category, store, presses).exited <==> 0 < |CardsFor(category)| <= presses
    ensures store.Some? ==>
              && Play(category, store, presses).store.value.(stars := store.value.stars) == store.value
              && Stars(Play(category, store, presses).store.value)
                   == Stars(store.value)
                      + (if |CardsFor(category)| == 0 then 0
                         else if presses < |CardsFor(category)| then presses
                         else |CardsFor(category)| - 1 + 5)
    ensures |CardsFor(category)| == 0 ==> Play(category, store, presses).store == store
  {
    var n := |CardsFor(category)|;
    if n > 0 {
      if store.Some? {
        PressNextPays(n, Fresh(store), presses);
      } else {
        PressNextNoProfile(n, Fresh(store), presses);
        PressNextExits(n, Fresh(store), presses);
      }
    }
  }

  /** Whether the screen has gone back depends only on the presses, not on the store. */
  lemma {:induction false} PressNextExits(count: nat, s: Session, presses: nat)
    requires s.index < count && !s.exited
    ensures PressNext(count, s, presses).exited <==> s.index + presses >= count
    decreases presses
  {
    if presses > 0 {
      var t := Next(count, s);
      if s.index + 1 < count {
        PressNextExits(count, t, presses - 1);
      } else {
        ExitedIgnoresPresses(count, t, presses - 1);
      }
    }
  }

  /** The default set, animals, pays 1 + 5 stars for its two cards and then goes back. */
  lemma AnimalsSetPays(p: Profile)
    ensures Play(None, Some(p), 2) == Session(1, Some(p.(stars := Some(Stars(p) + 6))), true)
  {
    assert |CardsFor(None)| == 2;
    WholeSetPays(2, p);
  }
}

=== FILE: journeys.dfy ===
/**
 * Properties that span screens: every request names a registered route,
 * the dashboard's activity entries reach the matching activity through the
 * category grid, which categories have content, and the first-run journey
 * from an empty store to the main app.
 */
module Journeys {
  import opened Wrappers
  import opened Navigation
  import opened ProfileStore
  import Onboarding
  import Categories
  import Dashboard
  import Quiz
  import Flashcards
  import Text

  /** Every request the gates, the category grid and the quick-access entries make names a registered route. */
  lemma AllRequestsRegistered(load: Load, activityType: Option<string>, key: string, i: nat)
    requires i < |Dashboard.QuickAccessItems|
    ensures Registered(Onboarding.MountCheck(load))
    ensures Registered(Dashboard.Mount(load).nav)
    ensures Registered(Categories.Mount(load).nav)
    ensures Registered(Categories.PressCategory(activityType, key))
    ensures Registered(Dashboard.PressQuickAccess(Dashboard.QuickAccessItems[i]))
  {
    Dashboard.QuickAccessDestinations();
  }

  /**
   * The dashboard's flashcards and quiz entries open the category grid with
   * their key as activity type, and a category pressed there opens the
   * matching activity for that category.
   */
  lemma QuickAccessReachesActivity(i: nat, key: string)
    requires i < |Dashboard.QuickAccessItems|
    requires Dashboard.QuickAccessItems[i].key in {"flashcards", "quiz"}
    ensures Dashboard.PressQuickAccess(Dashboard.QuickAccessItems[i]).route == "Categories"
    ensures Categories.PressCategory(Dashboard.PressQuickAccess(Dashboard.QuickAccessItems[i]).params.activityType, key)
              == Navigate(if Dashboard.QuickAccessItems[i].key == "quiz" then "Quiz" else "Flashcards", Params(Some(key), None))
  {
  }

  /**
   * Of the five categories on the grid, only food opens a quiz with
   * questions and only animals opens a non-empty flashcard set; every other
   * press lands on an empty state.
   */
  lemma GridCategoriesWithContent(k: nat)
    requires k < |Categories.CategoryKeys|
    ensures |Quiz.QuestionsFor(Some(Categories.CategoryKeys[k]))| > 0 <==> Categories.CategoryKeys[k] == "food"
    ensures |Flashcards.CardsFor(Some(Categories.CategoryKeys[k]))| > 0 <==> Categories.CategoryKeys[k] == "animals"
  {
    Quiz.QuestionsOnlyForFood(Some(Categories.CategoryKeys[k]));
    Flashcards.CardsOnlyForAnimals(Some(Categories.CategoryKeys[k]));
  }

  /** A profile made by onboarding shows its own level on the dashboard, never the fallback. */
  lemma CreatedProfileShowsItsLevel(p: Profile)
    requires Onboarding.Created(p)
    ensures Dashboard.LevelDisplay(p) == Dashboard.LevelName(p.level.value)
  {
  }

  /**
   * The three mount-time gates agree on the store: after a successful read,
   * the dashboard and the category grid send the user to onboarding exactly
   * when nothing is stored, and onboarding hands over to the main app exactly
   * when something is.
   */
  lemma GatesAgreeOnStore(store: Option<Profile>, readOk: bool)
    ensures Dashboard.Mount(Read(store, readOk)).nav == Replace("Onboarding") <==> readOk && store.None?
    ensures Categories.Mount(Read(store, readOk)).nav == Replace("Onboarding") <==> readOk && store.None?
    ensures Onboarding.MountCheck(Read(store, readOk)) == Replace("MainApp") <==> readOk && store.Some?
    ensures Dashboard.Mount(Read(store, readOk)).nav == Stay <==> !readOk || store.Some?
  {
  }

  /**
   * From a blank onboarding form over any store, whatever the user does and
   * whenever the mount-time read settles: the store is untouched while the
   * screen stays; the screen leaves holding either the profile it found or a
   * newly created one, the latter always when the store was empty; and every
   * gate then reads that profile and lets the user in.
   */
  lemma OnboardingThenGates(store: Option<Profile>, events: seq<Onboarding.Event>)
    ensures var s := Onboarding.Run(Onboarding.Session(Onboarding.Blank, store, false), events);
      && (!s.exited ==> s.store == store)
      && (s.exited ==>
            && s.store.Some? && (s.store == store || Onboarding.Created(s.store.value))
            && (store.None? ==> Onboarding.Created(s.store.value))
            && Onboarding.MountCheck(Read(s.store, true)) == Replace("MainApp")
            && !Dashboard.ShowsOnlyLoading(Dashboard.Mount(Read(s.store, true)))
            && Dashboard.Mount(Read(s.store, true)).nav == Stay
            && Categories.Mount(Read(s.store, true)).nav == Stay)
  {
    Onboarding.RunConsistent(Onboarding.Session(Onboarding.Blank, store, false), events, store);
  }

  /** The record the first run stores. */
  const Layla := Profile("Layla", Some("beginner"), "avatar3", Some(0), 0, map[])

  /** The form as the first run submits it. */
  const LaylaForm := Onboarding.Form(2, Some("beginner"), "Layla", Some("avatar3"))

  lemma LaylaFormIsValid()
    ensures Onboarding.Validate(LaylaForm) == Success(Layla)
  {
    Text.TrimFixesTrimmed("Layla");
    assert !Text.IsSpace('L') && !Text.IsSpace('a');
  }

  /**
   * The events of the first run: the mount read finds nothing, then two
   * slides, pick "beginner", type the name, pick the third avatar, start.
   */
  const FirstRunEvents := [
    Onboarding.Mounted(true), Onboarding.PressNext, Onboarding.PressNext, Onboarding.PickLevel(0),
    Onboarding.TypeName("Layla"), Onboarding.PickAvatar(2), Onboarding.PressStart(true)
  ]

  /** The session after each event of the first run. */
  const FirstRunStates: seq<Onboarding.Session> :=
    [Onboarding.Session(Onboarding.Blank, None, false),
     Onboarding.Session(Onboarding.Blank, None, false),
     Onboarding.Session(Onboarding.Form(1, None, "", None), None, false),
     Onboarding.Session(Onboarding.Form(2, None, "", None), None, false),
     Onboarding.Session(Onboarding.Form(2, Some("beginner"), "", None), None, false),
     Onboarding.Session(Onboarding.Form(2, Some("beginner"), "Layla", None), None, false),
     Onboarding.Session(LaylaForm, None, false),
     Onboarding.Session(LaylaForm, Some(Layla), true)]

  lemma FirstRunSlides()
    ensures Onboarding.Step(FirstRunStates[0], FirstRunEvents[0]) == FirstRunStates[1]
    ensures Onboarding.Step(FirstRunStates[1], FirstRunEvents[1]) == FirstRunStates[2]
    ensures Onboarding.Step(FirstRunStates[2], FirstRunEvents[2]) == FirstRunStates[3]
  {
  }

  lemma FirstRunForm()
    ensures Onboarding.Step(FirstRunStates[3], FirstRunEvents[3]) == FirstRunStates[4]
    ensures Onboarding.Step(FirstRunStates[4], FirstRunEvents[4]) == FirstRunStates[5]
    ensures Onboarding.Step(FirstRunStates[5], FirstRunEvents[5]) == FirstRunStates[6]
  {
  }

  lemma FirstRunSubmit()
    ensures Onboarding.Step(FirstRunStates[6], FirstRunEvents[6]) == FirstRunStates[7]
  {
    LaylaFormIsValid();
  }

  lemma {:induction false} FirstRunSuffix(k: nat)
    requires k <= 7
    ensures Onboarding.Run(FirstRunStates[k], FirstRunEvents[k..]) == FirstRunStates[7]
    decreases 7 - k
  {
    if k < 7 {
      FirstRunSlides();
      FirstRunForm();
      FirstRunSubmit();
      FirstRunSuffix(k + 1);
      assert FirstRunEvents[k..][1..] == FirstRunEvents[k + 1..];
    } else {
      assert FirstRunEvents[7..] == [];
    }
  }

  /**
   * A fresh install is sent to onboarding by the gates and stays there,
   * stores exactly the expected record once the form is submitted, and from
   * then on goes straight to the main app.
   */
  lemma FirstRunScenario()
    ensures Dashboard.Mount(Read(None, true)).nav == Replace("Onboarding")
    ensures Categories.Mount(Read(None, true)).nav == Replace("Onboarding")
    ensures Onboarding.MountCheck(Read(None, true)) == Stay
    ensures Onboarding.Run(Onboarding.Session(Onboarding.Blank, None, false), FirstRunEvents)
              == Onboarding.Session(LaylaForm, Some(Layla), true)
    ensures Onboarding.MountCheck(Read(Some(Layla), true)) == Replace("MainApp")
  {
    FirstRunSuffix(0);
    assert FirstRunEvents[0..] == FirstRunEvents;
  }
}

=== FILE: ledger.dfy ===
/**
 * The reward rules, free of storage: what one quiz answer or one flashcard
 * "next" pays, and a reference account of what a whole run of quiz answers
 * pays.
 */
module Ledger {
  import opened ProfileStore

  /** Stars for a correct quiz answer. */
  const AnswerStars: nat := 2
  /** Extra stars when the streak reaches the threshold. */
  const StreakBonusStars: nat := 5
  /** Consecutive correct answers that trigger the bonus. */
  const BonusStreak: nat := 3
  /** Stars for moving past a flashcard that is not the last. */
  const CardStars: nat := 1
  /** Stars for pressing "next" on the last flashcard. */
  const SetCompleteStars: nat := 5

  /**
   * The outcome of one quiz answer: the `addStars` calls it makes, in order,
   * the streak it leaves, and whether the bonus fired.
   */
  datatype QuizReward = QuizReward(awards: seq<nat>, streakAfter: nat, bonus: bool)

  /** The streak and star rules of the quiz answer handler. */
  function RewardAnswer(correct: bool, streak: nat): (r: QuizReward)
    ensures r.streakAfter <= 2
    ensures Sum(r.awards) <= 7
    ensures |r.awards| <= 2
    ensures r.bonus <==> correct && streak >= 2
    ensures !correct ==> r.awards == [] && r.streakAfter == 0
    ensures correct && !r.bonus ==> r.awards == [2] && r.streakAfter == streak + 1
    ensures r.bonus ==> r.awards == [2, 5] && r.streakAfter == 0
  {
    if !correct then
      QuizReward([], 0, false)
    else if streak + 1 >= BonusStreak then
      AwardSums();
      QuizReward([AnswerStars, StreakBonusStars], 0, true)
    else
      AwardSums();
      QuizReward([AnswerStars], streak + 1, false)
  }

  lemma AwardSums()
    ensures Sum([AnswerStars]) == 2
    ensures Sum([AnswerStars, StreakBonusStars]) == 7
  {
    var pair := [AnswerStars, StreakBonusStars];
    assert pair[1..] == [StreakBonusStars];
    assert Sum([StreakBonusStars]) == 5;
  }

  /** Stars for one flashcard "next": the last card pays the completion bonus instead of the card star. */
  function RewardNext(isLastCard: bool): (stars: nat)
    ensures stars > 0
    ensures stars == 5 <==> isLastCard
    ensures stars == 1 <==> !isLastCard
  {
    if isLastCard then SetCompleteStars else CardStars
  }

  /** Running totals of a replayed quiz: stars paid so far and the current streak. */
  datatype Tally = Tally(stars: nat, streak: nat)

  /** Replay the answer rule over a session's outcomes, oldest first, from streak 0. */
  function Replay(outcomes: seq<bool>): Tally {
    if |outcomes| == 0 then
      Tally(0, 0)
    else
      var before := Replay(outcomes[..|outcomes| - 1]);
      var r := RewardAnswer(outcomes[|outcomes| - 1], before.streak);
      Tally(before.stars + Sum(r.awards), r.streakAfter)
  }

  function CountCorrect(outcomes: seq<bool>): nat {
    if |outcomes| == 0 then 0
    else CountCorrect(outcomes[..|outcomes| - 1]) + (if outcomes[|outcomes| - 1] then 1 else 0)
  }

  /** Length of the run of correct answers that ends the sequence. */
  function TrailingCorrect(outcomes: seq<bool>): nat {
    if |outcomes| == 0 || !outcomes[|outcomes| - 1] then 0
    else 1 + TrailingCorrect(outcomes[..|outcomes| - 1])
  }

  /**
   * Reference count of bonuses: the answers that close a run of consecutive
   * correct answers whose length is a multiple of three.
   */
  function Bonuses(outcomes: seq<bool>): nat {
    if |outcomes| == 0 then 0
    else
      Bonuses(outcomes[..|outcomes| - 1])
      + (if outcomes[|outcomes| - 1] && TrailingCorrect(outcomes) % 3 == 0 then 1 else 0)
  }

  /**
   * A replayed session pays 2 stars per correct answer plus 5 per completed
   * triple of consecutive correct answers, and its streak is the trailing
   * run of correct answers modulo three.
   */
  lemma {:induction false} ReplayMatchesReference(outcomes: seq<bool>)
    ensures Replay(outcomes).streak == TrailingCorrect(outcomes) % 3
    ensures Replay(outcomes).stars == 2 * CountCorrect(outcomes) + 5 * Bonuses(outcomes)
    decreases |outcomes|
  {
    if |outcomes| > 0 {
      var prefix := outcomes[..|outcomes| - 1];
      ReplayMatchesReference(prefix);
      var t := TrailingCorrect(prefix);
      AwardSums();
      if outcomes[|outcomes| - 1] {
        assert TrailingCorrect(outcomes) == t + 1;
        if t % 3 == 2 {
          assert (t + 1) % 3 == 0;
        } else {
          assert (t + 1) % 3 == t % 3 + 1;
        }
      }
    }
  }

  /** n correct answers in a row from a fresh streak pay 2n stars plus 5 for every full three. */
  lemma {:induction false} AllCorrectPays(n: nat)
    ensures Replay(seq(n, _ => true)).stars == 2 * n + 5 * (n / 3)
    ensures Replay(seq(n, _ => true)).streak == n % 3
  {
    AllCorrectCounts(n);
    ReplayMatchesReference(seq(n, _ => true));
  }

  lemma {:induction false} AllCorrectCounts(n: nat)
    ensures CountCorrect(seq(n, _ => true)) == n
    ensures TrailingCorrect(seq(n, _ => true)) == n
    ensures Bonuses(seq(n, _ => true)) == n / 3
  {
    if n > 0 {
      var s := seq(n, _ => true);
      assert s[..n - 1] == seq(n - 1, _ => true);
      AllCorrectCounts(n - 1);
      if n % 3 == 0 {
        assert n / 3 == (n - 1) / 3 + 1;
      } else {
        assert n / 3 == (n - 1) / 3;
      }
    }
  }

  /** A wrong answer wipes the streak, so no bonus can straddle it. */
  lemma {:induction false} WrongAnswerResetsStreak(outcomes: seq<bool>)
    requires |outcomes| > 0 && !outcomes[|outcomes| - 1]
    ensures Replay(outcomes).streak == 0
    ensures Replay(outcomes).stars == Replay(outcomes[..|outcomes| - 1]).stars
  {
  }
}

=== FILE: navigation.dfy ===
/**
 * The navigation boundary: the route names the stack navigator registers,
 * the parameter bag screens pass to each other, and the requests a handler
 * makes of the navigator.
 */
module Navigation {
  import opened Wrappers

  /** Every route name registered with the stack navigator. */
  const Routes: set<string> :=
    {"Onboarding", "MainApp", "Categories", "Flashcards", "Quiz", "QA",
     "Stories", "Rewards", "ParentSettings", "Success"}

  /** `route.params`: only `category` and `activityType` are ever passed or read. */
  datatype Params = Params(category: Option<string>, activityType: Option<string>)

  const NoParams := Params(None, None)

  /** What a handler asks of the navigator: nothing, `goBack()`, `replace(route)` or `navigate(route, params)`. */
  datatype Nav = Stay | GoBack | Replace(route: string) | Navigate(route: string, params: Params)

  /** A request names a route the navigator knows (or names none). */
  predicate Registered(n: Nav) {
    match n
    case Stay => true
    case GoBack => true
    case Replace(r) => r in Routes
    case Navigate(r, _) => r in Routes
  }

  /** JavaScript truthiness of an optional string: absent and "" are falsy. */
  predicate Truthy(o: Option<string>) {
    o.Some? && o.value != ""
  }

  /** The expression `o || fallback`. */
  function OrElse(o: Option<string>, fallback: string): string {
    if Truthy(o) then o.value else fallback
  }

  /** Object-literal lookup `table[key] || []`. */
  function Lookup<T>(table: map<string, seq<T>>, key: string): seq<T> {
    if key in table then table[key] else []
  }
}

=== FILE: onboarding.dfy ===
/**
 * The onboarding screen: the mount-time profile check, the slide pager, the
 * level/name/avatar form, and the creation of the first profile.
 */
module Onboarding {
  import opened Wrappers
  import opened Navigation
  import opened ProfileStore
  import opened Text

  /** The intro slides, by key; the form sits under the last one. */
  const SlideKeys := ["1", "2", "3"]

  /** The level buttons' keys. */
  const Levels := ["beginner", "intermediate", "advanced"]

  /** The avatar buttons' keys. */
  const Avatars := ["avatar1", "avatar2", "avatar3", "avatar4", "avatar5"]

  /** `currentSlideIndex`, `selectedLevel`, `childName` and `selectedAvatarKey`. */
  datatype Form = Form(slide: nat, level: Option<string>, name: string, avatar: Option<string>)

  const Blank := Form(0, None, "", None)

  /** The level, name and avatar controls are rendered only on the last slide. */
  predicate FormShown(f: Form) {
    f.slide == |SlideKeys| - 1
  }

  /**
   * On mount the screen only tests whether any text is stored, without
   * parsing it: stored text, a record or not, replaces the screen with the
   * main app; nothing stored stays, and a rejected read is never handled, so
   * it stays too.
   */
  function MountCheck(load: Load): (n: Nav)
    ensures n == Replace("MainApp") <==> load.Found? || load.Unparseable?
    ensures n == Stay <==> load.Missing? || load.Rejected?
  {
    if load.Found? || load.Unparseable? then Replace("MainApp") else Stay
  }

  /** `handleNextSlide`: advance while a further slide exists. */
  function NextSlide(f: Form): (r: Form)
    ensures f.slide < |SlideKeys| ==> r.slide < |SlideKeys|
    ensures f.slide + 1 < |SlideKeys| ==> r == f.(slide := f.slide + 1)
    ensures f.slide + 1 >= |SlideKeys| ==> r == f
  {
    var next := f.slide + 1;
    if next < |SlideKeys| then f.(slide := next) else f
  }

  /** The field a rejected submission complains about. */
  datatype Field = Name | Level | Avatar

  /**
   * The checks of `handleStartLearning`, in order: the trimmed name, then the
   * level, then the avatar; on success the first profile, with zeroed
   * counters and no progress.
   */
  function Validate(f: Form): (r: Result<Profile, Field>)
    ensures r.Success? ==> f.avatar.Some? && r.value == Profile(Trim(f.name), f.level, f.avatar.value, Some(0), 0, map[])
  {
    if Trim(f.name) == [] then Failure(Name)
    else if !Truthy(f.level) then Failure(Level)
    else if !Truthy(f.avatar) then Failure(Avatar)
    else Success(Profile(Trim(f.name), f.level, f.avatar.value, Some(0), 0, map[]))
  }

  /**
   * Validation order: a blank or whitespace-only name is reported whatever
   * else is missing; the level is reported only for a good name; the avatar
   * only when name and level are both good.
   */
  lemma ValidationOrder(f: Form)
    ensures Validate(f) == Failure(Name) <==> AllSpace(f.name)
    ensures Validate(f) == Failure(Level) <==> !AllSpace(f.name) && !Truthy(f.level)
    ensures Validate(f) == Failure(Avatar) <==> !AllSpace(f.name) && Truthy(f.level) && !Truthy(f.avatar)
    ensures Validate(f).Success? <==> !AllSpace(f.name) && Truthy(f.level) && Truthy(f.avatar)
  {
  }

  /** A profile as onboarding creates it. */
  predicate Created(p: Profile) {
    && p.name != [] && Trim(p.name) == p.name
    && p.level.Some? && p.level.value in Levels
    && p.avatarKey in Avatars
    && p.stars == Some(0) && p.badges == 0 && p.progress == map[]
  }

  /** How a press of "start learning" ended. */
  datatype Outcome = Invalid(field: Field) | SaveFailed | Saved

  datatype Submitted = Submitted(outcome: Outcome, store: Option<Profile>, nav: Nav)

  /**
   * `handleStartLearning`: a rejected form writes nothing and stays; a valid
   * one is written over whatever was stored, and only a write that succeeds
   * is followed by the replace to the main app.
   */
  function StartLearning(f: Form, store: Option<Profile>, saveOk: bool): (r: Submitted)
    ensures Validate(f).Failure? ==> r == Submitted(Invalid(Validate(f).error), store, Stay)
    ensures r.outcome == Saved <==> Validate(f).Success? && saveOk
    ensures r.outcome == Saved ==> r.store == Some(Validate(f).value) && r.nav == Replace("MainApp")
    ensures r.outcome != Saved ==> r.store == store && r.nav == Stay
  {
    match Validate(f)
    case Failure(field) => Submitted(Invalid(field), store, Stay)
    case Success(p) =>
      if saveOk then Submitted(Saved, Some(p), Replace("MainApp"))
      else Submitted(SaveFailed, store, Stay)
  }

  /**
   * Presses and typing on the screen, a level or avatar named by its
   * button's position, and the settling of the mount-time read.
   */
  datatype Event =
    | PressNext | PickLevel(i: nat) | TypeName(text: string) | PickAvatar(i: nat) | PressStart(saveOk: bool)
    | Mounted(readOk: bool)

  /** The form, the store, and whether the screen has been replaced by the main app. */
  datatype Session = Session(form: Form, store: Option<Profile>, exited: bool)

  /**
   * One event. "Next" is rendered only before the last slide, and the level,
   * name, avatar and start controls only on it; an event for a control that
   * is not rendered changes nothing. Only a successful save writes the
   * store, and only a successful save or a stored profile found on mount
   * leaves the screen.
   */
  function Step(s: Session, e: Event): (r: Session)
    ensures s.exited ==> r == s
    ensures !FormShown(s.form) && (e.PickLevel? || e.TypeName? || e.PickAvatar? || e.PressStart?) ==> r == s
    ensures FormShown(s.form) && e.PressNext? ==> r == s
    ensures !s.exited && e.PressNext? && s.form.slide + 1 < |SlideKeys| ==> r == s.(form := s.form.(slide := s.form.slide + 1))
    ensures !e.PressNext? ==> r.form.slide == s.form.slide
    ensures r.store != s.store ==> !s.exited && e.PressStart? && r.exited && Validate(s.form).Success? && r.store == Some(Validate(s.form).value)
    ensures r.exited && !s.exited ==> e.PressStart? || (e.Mounted? && e.readOk && s.store.Some?)
    ensures !s.exited && e.Mounted? ==> r.form == s.form && r.store == s.store && (r.exited <==> e.readOk && s.store.Some?)
    ensures !s.exited && FormShown(s.form) && e.PickLevel? && e.i < |Levels| ==> r == s.(form := s.form.(level := Some(Levels[e.i])))
    ensures !s.exited && FormShown(s.form) && e.TypeName? ==> r == s.(form := s.form.(name := e.text))
    ensures !s.exited && FormShown(s.form) && e.PickAvatar? && e.i < |Avatars| ==> r == s.(form := s.form.(avatar := Some(Avatars[e.i])))
    ensures (e.PickLevel? && e.i >= |Levels|) || (e.PickAvatar? && e.i >= |Avatars|) ==> r == s
    ensures e.PressStart? ==> r.form == s.form
    ensures !s.exited && e.PressStart? && !e.saveOk ==> r == s
    ensures !s.exited && e.PressStart? && r.exited ==> e.saveOk && Validate(s.form).Success? && r.store == Some(Validate(s.form).value)
    ensures !s.exited && e.PressStart? && FormShown(s.form) && e.saveOk && Validate(s.form).Success? ==> r.exited
  {
    if s.exited then s
    else
      match e
      case PressNext =>
        if FormShown(s.form) then s else s.(form := NextSlide(s.form))
      case PickLevel(i) =>
        if FormShown(s.form) && i < |Levels| then s.(form := s.form.(level := Some(Levels[i]))) else s
      case TypeName(text) =>
        if FormShown(s.form) then s.(form := s.form.(name := text)) else s
      case PickAvatar(i) =>
        if FormShown(s.form) && i < |Avatars| then s.(form := s.form.(avatar := Some(Avatars[i]))) else s
      case PressStart(saveOk) =>
        if FormShown(s.form) then
          var r := StartLearning(s.form, s.store, saveOk);
          Session(s.form, r.store, r.outcome == Saved)
        else s
      case Mounted(readOk) =>
        if MountCheck(Read(s.store, readOk)) == Replace("MainApp") then s.(exited := true) else s
  }

  function Run(s: Session, events: seq<Event>): Session
    decreases |events|
  {
    if |events| == 0 then s else Run(Step(s, events[0]), events[1..])
  }

  /**
   * The screen's invariant: the slide index stays on a slide, a chosen level
   * or avatar is one of the table's keys, and the store is untouched until
   * the screen leaves. It leaves holding a profile: the one found on mount,
   * untouched, or a freshly created one.
   */
  ghost predicate Consistent(s: Session, initial: Option<Profile>) {
    && s.form.slide < |SlideKeys|
    && (s.form.level.Some? ==> s.form.level.value in Levels)
    && (s.form.avatar.Some? ==> s.form.avatar.value in Avatars)
    && (!s.exited ==> s.store == initial)
    && (s.exited ==> s.store.Some? && (s.store == initial || Created(s.store.value)))
  }

  lemma StepConsistent(s: Session, e: Event, initial: Option<Profile>)
    requires Consistent(s, initial)
    ensures Consistent(Step(s, e), initial)
  {
    if !s.exited && e.PressStart? && FormShown(s.form) {
      var v := Validate(s.form);
      if v.Success? {
        TrimIdempotent(s.form.name);
      }
    }
  }

  /**
   * Any sequence of events keeps the invariant: the screen writes the store
   * only when it leaves for the main app, and then with a well-formed new
   * profile; over an empty store it can only leave with such a profile.
   */
  lemma {:induction false} RunConsistent(s: Session, events: seq<Event>, initial: Option<Profile>)
    requires Consistent(s, initial)
    ensures Consistent(Run(s, events), initial)
    decreases |events|
  {
    if |events| > 0 {
      StepConsistent(s, events[0], initial);
      RunConsistent(Step(s, events[0]), events[1..], initial);
    }
  }

  /** A screen that has been replaced handles nothing more. */
  lemma {:induction false} RunExited(s: Session, events: seq<Event>)
    requires s.exited
    ensures Run(s, events) == s
    decreases |events|
  {
    if |events| > 0 {
      RunExited(Step(s, events[0]), events[1..]);
    }
  }

  /**
   * A profile found by the mount-time read replaces the screen at once, so
   * no later event can overwrite the stored profile.
   */
  lemma MountedOverStoredProfile(p: Profile, f: Form, events: seq<Event>)
    ensures Run(Session(f, Some(p), false), [Mounted(true)] + events) == Session(f, Some(p), true)
  {
    var es := [Mounted(true)] + events;
    assert es[0] == Mounted(true) && es[1..] == events;
    RunExited(Session(f, Some(p), true), events);
  }

  /** From a blank form the controls appear after exactly two presses of "next". */
  lemma FormAfterTwoSlides(store: Option<Profile>)
    ensures !FormShown(Run(Session(Blank, store, false), [PressNext]).form)
    ensures FormShown(Run(Session(Blank, store, false), [PressNext, PressNext]).form)
  {
    var s0 := Session(Blank, store, false);
    assert [PressNext][1..] == [];
    assert [PressNext, PressNext][1..] == [PressNext];
    assert Run(s0, [PressNext]) == Step(s0, PressNext);
    assert Run(s0, [PressNext, PressNext]) == Run(Step(s0, PressNext), [PressNext]);
  }
}

=== FILE: profile_store.dfy ===
/**
 * The learner profile and its storage: one record under one key, read whole
 * and written whole. The store is the value under that key, `None` when
 * nothing is stored.
 */
module ProfileStore {
  import opened Wrappers
  import opened Navigation

  /**
   * The stored record as it parses back. `level` and `stars` may be absent
   * in a parsed record; readers treat absence (and other falsy values) with
   * a fallback. `progress` is carried along and never interpreted.
   */
  datatype Profile = Profile(
    name: string,
    level: Option<string>,
    avatarKey: string,
    stars: Option<int>,
    badges: int,
    progress: map<string, string>)

  /** `profile.stars || 0`. */
  function Stars(p: Profile): int {
    match p.stars
    case Some(n) => n
    case None => 0
  }

  /**
   * `addStars(count)`: read the record, add `count` to its stars and write the
   * whole record back. With nothing stored, nothing is written.
   */
  function AddStars(store: Option<Profile>, count: nat): (r: Option<Profile>)
    ensures r.Some? <==> store.Some?
    ensures store.Some? ==> r.value.stars == Some(Stars(store.value) + count)
    ensures store.Some? ==> r.value.(stars := store.value.stars) == store.value
  {
    match store
    case None => None
    case Some(p) => Some(p.(stars := Some(Stars(p) + count)))
  }

  function Sum(counts: seq<nat>): nat {
    if |counts| == 0 then 0 else counts[0] + Sum(counts[1..])
  }

  /** Successive `addStars` calls, each one reading what the previous one wrote. */
  function AddStarsEach(store: Option<Profile>, counts: seq<nat>): Option<Profile>
    decreases |counts|
  {
    if |counts| == 0 then store else AddStarsEach(AddStars(store, counts[0]), counts[1..])
  }

  lemma AddStarsEachShort(store: Option<Profile>, a: nat, b: nat)
    ensures AddStarsEach(store, []) == store
    ensures AddStarsEach(store, [a]) == AddStars(store, a)
    ensures AddStarsEach(store, [a, b]) == AddStars(AddStars(store, a), b)
  {
    assert [a][1..] == [];
    assert [a, b][1..] == [b];
    assert [b][1..] == [];
    calc {
      AddStarsEach(store, [a, b]);
      AddStarsEach(AddStars(store, a), [b]);
      AddStarsEach(AddStars(AddStars(store, a), b), []);
    }
  }

  /** A run of awards against a stored profile adds exactly their sum and touches no other field. */
  lemma {:induction false} AddStarsEachSums(store: Option<Profile>, counts: seq<nat>)
    requires store.Some?
    ensures AddStarsEach(store, counts).Some?
    ensures Stars(AddStarsEach(store, counts).value) == Stars(store.value) + Sum(counts)
    ensures AddStarsEach(store, counts).value.(stars := store.value.stars) == store.value
    decreases |counts|
  {
    if |counts| > 0 {
      AddStarsEachSums(AddStars(store, counts[0]), counts[1..]);
    }
  }

  /** With no stored profile every award is dropped and nothing is ever written. */
  lemma {:induction false} AddStarsEachNoProfile(counts: seq<nat>)
    ensures AddStarsEach(None, counts) == None
    decreases |counts|
  {
    if |counts| > 0 {
      AddStarsEachNoProfile(counts[1..]);
    }
  }

  /** A non-empty run of awards has the same effect as one award of their sum. */
  lemma {:induction false} AddStarsEachIsOneWrite(store: Option<Profile>, counts: seq<nat>)
    requires |counts| > 0
    ensures AddStarsEach(store, counts) == AddStars(store, Sum(counts))
    decreases |counts|
  {
    if |counts| > 1 {
      AddStarsEachIsOneWrite(AddStars(store, counts[0]), counts[1..]);
    } else {
      assert counts[1..] == [];
    }
  }

  lemma {:induction false} SumAppend(a: seq<nat>, b: seq<nat>)
    ensures Sum(a + b) == Sum(a) + Sum(b)
    decreases |a|
  {
    if |a| > 0 {
      assert (a + b)[1..] == a[1..] + b;
      SumAppend(a[1..], b);
    } else {
      assert a + b == b;
    }
  }

  lemma {:induction false} SumPermutation(a: seq<nat>, b: seq<nat>)
    requires multiset(a) == multiset(b)
    ensures Sum(a) == Sum(b)
    decreases |a|
  {
    if |a| == 0 {
      assert |multiset(b)| == 0;
    } else {
      var x := a[0];
      assert x in multiset(b);
      var i :| 0 <= i < |b| && b[i] == x;
      var rest := b[..i] + b[i + 1..];
      assert b == b[..i] + [x] + b[i + 1..];
      assert a == [x] + a[1..];
      calc {
        multiset(rest);
        multiset(b[..i]) + multiset(b[i + 1..]);
        multiset(b) - multiset{x};
        multiset(a) - multiset{x};
        multiset(a[1..]);
      }
      SumPermutation(a[1..], rest);
      SumAppend(b[..i] + [x], b[i + 1..]);
      SumAppend(b[..i], [x]);
      SumAppend(b[..i], b[i + 1..]);
      assert Sum([x]) == x;
    }
  }

  /** The order of the awards does not matter: any permutation of them leaves the same record. */
  lemma AddStarsEachOrderIndependent(store: Option<Profile>, a: seq<nat>, b: seq<nat>)
    requires multiset(a) == multiset(b)
    ensures AddStarsEach(store, a) == AddStarsEach(store, b)
  {
    if |a| == 0 {
      assert |multiset(b)| == 0;
      assert b == [];
    } else {
      assert |b| == |multiset(b)| == |multiset(a)| == |a|;
      AddStarsEachIsOneWrite(store, a);
      AddStarsEachIsOneWrite(store, b);
      SumPermutation(a, b);
    }
  }

  /**
   * What reading the key yields: a parsed record, nothing stored, a rejected
   * `getItem`, or stored text that `JSON.parse` throws on.
   */
  datatype Load = Found(profile: Profile) | Missing | Rejected | Unparseable

  /**
   * Read the key; `readOk` false stands for a rejected `getItem`. The store
   * holds parsed records only, so reading it never yields `Unparseable`;
   * the screens' answers to that result are stated on the result itself.
   */
  function Read(store: Option<Profile>, readOk: bool): (r: Load)
    ensures r.Found? ==> store == Some(r.profile)
    ensures r.Found? <==> readOk && store.Some?
    ensures r.Missing? <==> readOk && store.None?
    ensures r.Rejected? <==> !readOk
    ensures !r.Unparseable?
  {
    if !readOk then Rejected
    else if store.Some? then Found(store.value)
    else Missing
  }

  /** A screen that loads the profile on mount: its loading flag, the profile it holds, and its request. */
  datatype Gate = Gate(loading: bool, profile: Option<Profile>, nav: Nav)

  /** Before the read completes. */
  const Loading := Gate(true, None, Stay)

  /**
   * `loadProfile`: keep the record when one is found, send the user to
   * onboarding when none is stored, only log a rejected read or a parse
   * error; in every case loading ends.
   */
  function LoadProfile(load: Load): (g: Gate)
    ensures !g.loading
    ensures g.nav == Replace("Onboarding") <==> load.Missing?
    ensures g.nav == Stay <==> !load.Missing?
    ensures g.profile.Some? <==> load.Found?
    ensures load.Found? ==> g.profile.value == load.profile
  {
    match load
    case Found(p) => Gate(false, Some(p), Stay)
    case Missing => Gate(false, None, Replace("Onboarding"))
    case Rejected => Gate(false, None, Stay)
    case Unparseable => Gate(false, None, Stay)
  }
}

=== FILE: qa.dfy ===
/**
 * The Q&A screen: the shared answer machine over one fixed question list,
 * with no rewards and no streak. It takes no store, so it can neither read
 * nor change the profile.
 */
module QA {
  import opened Wrappers
  import opened Navigation
  import AnswerSession

  /** The fixed question list; it is the same whatever category is passed. */
  const QaData: seq<AnswerSession.Question> :=
    [AnswerSession.Question("qa1", ["cat", "dog", "bird", "fish"], "cat")]

  /** The mounted screen: the header's category suffix and the questions it asks. */
  datatype Screen = Screen(headerSuffix: string, questions: seq<AnswerSession.Question>)

  /** Mounting with `route.params?.category`: the category only decorates the header. */
  function Open(category: Option<string>): (r: Screen)
    ensures r.questions == QaData
    ensures Truthy(category) ==> r.headerSuffix == "(" + category.value + ")"
    ensures !Truthy(category) ==> r.headerSuffix == ""
  {
    Screen(if Truthy(category) then "(" + category.value + ")" else "", QaData)
  }

  const Fresh := AnswerSession.Session(AnswerSession.Start, false, [])

  /** Events delivered to a mounted screen. */
  function Play(category: Option<string>, events: seq<AnswerSession.Event>): AnswerSession.Session {
    AnswerSession.Run(Open(category).questions, Fresh, events)
  }

  /** The category changes nothing about the session. */
  lemma PlayIgnoresCategory(c1: Option<string>, c2: Option<string>, events: seq<AnswerSession.Event>)
    ensures Play(c1, events) == Play(c2, events)
  {
  }

  /**
   * With its single question, a Q&A session accepts at most one answer, never
   * leaves the first question, and goes back only once that answer is locked.
   */
  lemma PlayAnswersOnce(category: Option<string>, events: seq<AnswerSession.Event>)
    ensures |Play(category, events).answers| <= 1
    ensures Play(category, events).state.index == 0
    ensures Play(category, events).exited ==> AnswerSession.Locked(Play(category, events).state)
  {
    AnswerSession.RunAnswersEachQuestionOnce(QaData, Fresh, events);
  }

  /** Picking the cat is right, picking anything else is wrong; the timer then leaves the screen either way. */
  lemma SingleQuestionScenario(key: string)
    ensures Play(None, [AnswerSession.Choose(key)]).answers == [key == "cat"]
    ensures Play(None, [AnswerSession.Choose(key), AnswerSession.TimerFires]).exited
  {
    var choose, fire := AnswerSession.Choose(key), AnswerSession.TimerFires;
    var s1 := AnswerSession.Step(QaData, Fresh, choose);
    assert s1.answers == [key == "cat"];
    assert [choose][1..] == [];
    assert AnswerSession.Run(QaData, Fresh, [choose]) == AnswerSession.Run(QaData, s1, []);
    var s2 := AnswerSession.Step(QaData, s1, fire);
    assert s2.exited;
    assert [choose, fire][1..] == [fire];
    assert [fire][1..] == [];
    assert AnswerSession.Run(QaData, Fresh, [choose, fire]) == AnswerSession.Run(QaData, s1, [fire]);
    assert AnswerSession.Run(QaData, s1, [fire]) == AnswerSession.Run(QaData, s2, []);
  }
}

=== FILE: quiz.dfy ===
/**
 * The quiz screen: the shared answer machine plus a correct-answer streak
 * and star awards written to the stored profile.
 */
module Quiz {
  import opened Wrappers
  import opened Navigation
  import opened ProfileStore
  import opened Ledger
  import AnswerSession

  type Question = AnswerSession.Question

  /** The category shown when none is passed. */
  const DefaultCategory := "food"

  /** The static question table, by category key. */
  const QuizQuestions: map<string, seq<Question>> := map[
    "food" := [AnswerSession.Question("q1", ["apple", "banana", "pear", "orange"], "apple")],
    "animals" := []
  ]

  /** `quizQuestions[route.params?.category || 'food'] || []`. */
  function QuestionsFor(category: Option<string>): seq<Question> {
    Lookup(QuizQuestions, OrElse(category, DefaultCategory))
  }

  /** Only the food category, which is also the default, has questions; any other key yields none. */
  lemma QuestionsOnlyForFood(category: Option<string>)
    ensures |QuestionsFor(category)| > 0 <==> !Truthy(category) || category.value == "food"
    ensures !Truthy(category) ==> QuestionsFor(category) == QuestionsFor(Some("food"))
    ensures |QuestionsFor(category)| <= 1
  {
  }

  /** The answer machine's state plus `correctStreak`. */
  datatype QuizState = QuizState(answer: AnswerSession.State, streak: nat)

  const Start := QuizState(AnswerSession.Start, 0)

  /** The state and store after an answer. */
  datatype Answered = Answered(state: QuizState, store: Option<Profile>)

  /**
   * `handleAnswerSelect(key)`: ignored while the question is locked; a
   * correct answer pays 2 stars and extends the streak, and the third in a
   * row pays 5 more and resets it; a wrong answer pays nothing and resets
   * the streak.
   */
  function Answer(questions: seq<Question>, s: QuizState, store: Option<Profile>, key: string): (r: Answered)
    requires AnswerSession.Valid(questions, s.answer)
    ensures AnswerSession.Valid(questions, r.state.answer)
    ensures AnswerSession.Locked(s.answer) ==> r == Answered(s, store)
    ensures !AnswerSession.Locked(s.answer) ==>
              r.state.answer == AnswerSession.Select(questions, s.answer, key) && r.state.streak <= 2
    ensures !AnswerSession.Locked(s.answer) && key != questions[s.answer.index].correctAnswerKey ==>
              r.store == store && r.state.streak == 0
    ensures !AnswerSession.Locked(s.answer) && key == questions[s.answer.index].correctAnswerKey && s.streak < 2 ==>
              r.store == AddStars(store, 2) && r.state.streak == s.streak + 1
    ensures !AnswerSession.Locked(s.answer) && key == questions[s.answer.index].correctAnswerKey && s.streak >= 2 ==>
              r.store == AddStars(AddStars(store, 2), 5) && r.state.streak == 0
  {
    if AnswerSession.Locked(s.answer) then
      Answered(s, store)
    else
      var next := AnswerSession.Select(questions, s.answer, key);
      var reward := RewardAnswer(next.outcome.value, s.streak);
      AddStarsEachShort(store, 2, 5);
      Answered(QuizState(next, reward.streakAfter), AddStarsEach(store, reward.awards))
  }

  /** A quiz screen's history, as in the answer machine, plus the store it writes. */
  datatype Session = Session(state: QuizState, store: Option<Profile>, exited: bool, answers: seq<bool>)

  function Project(s: Session): AnswerSession.Session {
    AnswerSession.Session(s.state.answer, s.exited, s.answers)
  }

  /** One event; the timer step carries the streak over and awards nothing, not even on finishing. */
  function Step(questions: seq<Question>, s: Session, e: AnswerSession.Event): (r: Session)
    requires AnswerSession.Valid(questions, s.state.answer)
    ensures AnswerSession.Valid(questions, r.state.answer)
    ensures Project(r) == AnswerSession.Step(questions, Project(s), e)
    ensures e.TimerFires? ==> r.store == s.store && r.state.streak == s.state.streak
  {
    if s.exited then s
    else
      match e
      case Choose(key) =>
        if AnswerSession.Locked(s.state.answer) then s
        else
          var a := Answer(questions, s.state, s.store, key);
          Session(a.state, a.store, false, s.answers + [a.state.answer.outcome.value])
      case TimerFires =>
        var a := AnswerSession.Advance(questions, s.state.answer);
        Session(QuizState(a.state, s.state.streak), s.store, a.nav == GoBack, s.answers)
  }

  function Run(questions: seq<Question>, s: Session, events: seq<AnswerSession.Event>): (r: Session)
    requires AnswerSession.Valid(questions, s.state.answer)
    ensures AnswerSession.Valid(questions, r.state.answer)
    ensures Project(r) == AnswerSession.Run(questions, Project(s), events)
    decreases |events|
  {
    if |events| == 0 then s else Run(questions, Step(questions, s, events[0]), events[1..])
  }

  /**
   * What a session owes the store: its streak is the replayed streak, and the
   * stored stars grew by exactly the replayed awards, with no other field
   * touched and no profile conjured up.
   */
  ghost predicate Accounted(s: Session, initial: Option<Profile>) {
    && s.state.streak == Replay(s.answers).streak
    && (s.store.Some? <==> initial.Some?)
    && (initial.Some? ==>
          && Stars(s.store.value) == Stars(initial.value) + Replay(s.answers).stars
          && s.store.value.(stars := initial.value.stars) == initial.value)
  }

  lemma {:induction false} StepAccounted(questions: seq<Question>, s: Session, e: AnswerSession.Event, initial: Option<Profile>)
    requires AnswerSession.Valid(questions, s.state.answer)
    requires Accounted(s, initial)
    ensures Accounted(Step(questions, s, e), initial)
  {
    var r := Step(questions, s, e);
    if !s.exited && e.Choose? && !AnswerSession.Locked(s.state.answer) {
      var outcome := r.answers[|r.answers| - 1];
      assert r.answers[..|r.answers| - 1] == s.answers;
      var reward := RewardAnswer(outcome, s.state.streak);
      assert r.store == AddStarsEach(s.store, reward.awards);
      if initial.Some? {
        AddStarsEachSums(s.store, reward.awards);
      }
    }
  }

  lemma {:induction false} RunAccounted(questions: seq<Question>, s: Session, events: seq<AnswerSession.Event>, initial: Option<Profile>)
    requires AnswerSession.Valid(questions, s.state.answer)
    requires Accounted(s, initial)
    ensures Accounted(Run(questions, s, events), initial)
    decreases |events|
  {
    if |events| > 0 {
      StepAccounted(questions, s, events[0], initial);
      RunAccounted(questions, Step(questions, s, events[0]), events[1..], initial);
    }
  }

  /** A fresh session on a non-empty question list. */
  function Fresh(store: Option<Profile>): Session {
    Session(Start, store, false, [])
  }

  /** The screen as mounted: the empty state when the category has no questions, else the question list. */
  datatype Screen = NoQuestions | Questions(questions: seq<Question>)

  function Open(category: Option<string>): (r: Screen)
    ensures r.NoQuestions? <==> |QuestionsFor(category)| == 0
    ensures r.Questions? ==> r.questions == QuestionsFor(category) && AnswerSession.Valid(r.questions, AnswerSession.Start)
  {
    var qs := QuestionsFor(category);
    if |qs| == 0 then NoQuestions else Questions(qs)
  }

  /** Events delivered to a mounted screen; the empty state renders no option and so handles none. */
  function Play(category: Option<string>, store: Option<Profile>, events: seq<AnswerSession.Event>): Session {
    match Open(category)
    case NoQuestions => Fresh(store)
    case Questions(qs) => Run(qs, Fresh(store), events)
  }

  /**
   * Whatever the category and events: the streak stays in 0..2, never more
   * answers are paid than there are questions, and the stored stars grow by
   * exactly 2 per correct answer plus 5 per completed triple of consecutive
   * correct answers, with every other field unchanged. An empty category
   * touches nothing.
   */
  lemma PlayTheorem(category: Option<string>, store: Option<Profile>, events: seq<AnswerSession.Event>)
    ensures var r := Play(category, store, events);
      && r.state.streak <= 2
      && |r.answers| <= |QuestionsFor(category)|
      && (r.store.Some? <==> store.Some?)
      && (store.Some? ==>
            && Stars(r.store.value) == Stars(store.value) + 2 * CountCorrect(r.answers) + 5 * Bonuses(r.answers)
            && r.store.value.(stars := store.value.stars) == store.value)
      && (|QuestionsFor(category)| == 0 ==> r.store == store)
  {
    var r := Play(category, store, events);
    match Open(category)
    case NoQuestions =>
    case Questions(qs) =>
      RunAccounted(qs, Fresh(store), events, store);
      AnswerSession.RunAnswersEachQuestionOnce(qs, Project(Fresh(store)), events);
    ReplayMatchesReference(r.answers);
  }

  /** One right answer on the single food question pays 2 stars, and the timer then leaves the screen. */
  lemma OneCorrectAnswerScenario(p: Profile)
    ensures Play(None, Some(p), [AnswerSession.Choose("apple"), AnswerSession.TimerFires]).exited
    ensures Play(None, Some(p), [AnswerSession.Choose("apple"), AnswerSession.TimerFires]).store
              == Some(p.(stars := Some(Stars(p) + 2)))
  {
    var qs := QuestionsFor(None);
    var s1 := Step(qs, Fresh(Some(p)), AnswerSession.Choose("apple"));
    assert s1.answers == [true];
    var s2 := Step(qs, s1, AnswerSession.TimerFires);
    assert [AnswerSession.Choose("apple"), AnswerSession.TimerFires][1..] == [AnswerSession.TimerFires];
  }
}

=== FILE: text.dfy ===
/** JavaScript's `String.prototype.trim` over strings of characters. */
module Text {

  /** ECMAScript WhiteSpace and LineTerminator code points, the characters `trim` strips. */
  predicate IsSpace(c: char) {
    || c == '\t' || c == '\n' || c == '\U{B}' || c == '\U{C}' || c == '\r' || c == ' '
    || c == '\U{A0}' || c == '\U{1680}' || ('\U{2000}' <= c <= '\U{200A}')
    || c == '\U{2028}' || c == '\U{2029}' || c == '\U{202F}' || c == '\U{205F}'
    || c == '\U{3000}' || c == '\U{FEFF}'
  }

  predicate AllSpace(s: string) {
    forall i :: 0 <= i < |s| ==> IsSpace(s[i])
  }

  /** Number of leading whitespace characters. */
  function LeadingSpaces(s: string): (n: nat)
    ensures n <= |s|
    ensures AllSpace(s[..n])
    ensures n < |s| ==> !IsSpace(s[n])
  {
    if |s| == 0 || !IsSpace(s[0]) then
      0
    else
      var n := LeadingSpaces(s[1..]);
      assert s[..n + 1] == [s[0]] + s[1..][..n];
      n + 1
  }

  /** Number of trailing whitespace characters. */
  function TrailingSpaces(s: string): (n: nat)
    ensures n <= |s|
    ensures AllSpace(s[|s| - n..])
    ensures n < |s| ==> !IsSpace(s[|s| - n - 1])
  {
    if |s| == 0 || !IsSpace(s[|s| - 1]) then
      0
    else
      var init := s[..|s| - 1];
      var n := TrailingSpaces(init);
      assert s[|s| - (n + 1)..] == init[|init| - n..] + [s[|s| - 1]];
      assert n + 1 < |s| ==> s[|s| - (n + 1) - 1] == init[|init| - n - 1];
      n + 1
  }

  /**
   * `s.trim()`: the infix of `s` left after removing whitespace from both
   * ends. It is empty exactly when `s` is all whitespace, and otherwise
   * starts and ends with a non-whitespace character.
   */
  function Trim(s: string): (r: string)
    ensures |r| <= |s|
    ensures r == [] <==> AllSpace(s)
    ensures r != [] ==> !IsSpace(r[0]) && !IsSpace(r[|r| - 1])
    ensures exists a, b :: 0 <= a <= b <= |s| && r == s[a..b] && AllSpace(s[..a]) && AllSpace(s[b..])
  {
    var a := LeadingSpaces(s);
    if a == |s| then
      assert s[..a] == s;
      assert s == s[..a] && s[a..a] == [] && s[a..] == [];
      []
    else
      var rest := s[a..];
      var t := TrailingSpaces(rest);
      assert t < |rest|;
      var b := |s| - t;
      assert rest[|rest| - t..] == s[b..];
      assert s[a..b] == rest[..|rest| - t];
      assert s[a] == rest[0];
      assert !AllSpace(s) by { assert !IsSpace(s[a]); }
      s[a..b]
  }

  /** Trimming twice is trimming once. */
  lemma TrimIdempotent(s: string)
    ensures Trim(Trim(s)) == Trim(s)
  {
    var r := Trim(s);
    if r != [] {
      assert LeadingSpaces(r) == 0;
      assert TrailingSpaces(r) == 0;
      assert r[0..|r|] == r;
    }
  }

  /** A string is left alone by trimming exactly when it neither starts nor ends with whitespace. */
  lemma TrimFixesTrimmed(s: string)
    ensures Trim(s) == s <==> s == [] || (!IsSpace(s[0]) && !IsSpace(s[|s| - 1]))
  {
    if s != [] && !IsSpace(s[0]) && !IsSpace(s[|s| - 1]) {
      assert LeadingSpaces(s) == 0;
      assert s[0..] == s;
      assert TrailingSpaces(s) == 0;
      assert s[0..|s|] == s;
    }
  }
}

=== FILE: wrappers.dfy ===
/** Optional values and results, used for JavaScript's null/undefined and for error paths. */
module Wrappers {

  /** `None` stands for a JavaScript `null` or `undefined`. */
  datatype Option<+T> = None | Some(value: T)

  /** A value, or the error that stopped it from being produced. */
  datatype Result<+R, +E> = Success(value: R) | Failure(error: E)
}
